=== FILE: README.md ===
# archer.py redirect checker — a Dafny model

archer.py checks redirects served through the Akamai CDN. It takes a source URL and, optionally, the destination the
redirect should reach, or a workbook of such pairs. A check goes through these steps:

1. It normalises both URLs' schemes. The relaxed flags add `http://` or `https://` when a scheme is missing; without them, a missing scheme ends the run.
2. It takes the source's network location as the domain.
3. It asks DNS for that domain's first CNAME. That CNAME, minus the root dot, is the production edge hostname. The staging edge hostname is the production one with `edgekey` rewritten to `edgekey-staging`.
4. Unless `--production` is given, it routes the request's connections to the staging edge hostname. It does this by wrapping urllib3's `create_connection`.
5. It fetches the source with redirects followed and classifies the final response against the destination. The final URL matches if it is equal as it is or after percent-decoding.

The model is written as functions over values and lemmas about them. The exception is the batch loop, which is a method with loop invariants. The modules are:

- `Wrappers`: Option and Result.
- `PyStr`: Python's `rfind`, `rpartition` and `replace`.
- `UrlLib`: `unquote`, a reference `quote` as its partner, and the network location computed by `urlsplit`.
- `ConnectionPatch`: the chain of `create_connection` wrappers.
- `Archer`: the pipeline and the usage checks.
- `Scenarios`: worked examples drawn from the general lemmas.

DNS and HTTP are not modelled. They are function parameters: `resolve: string -> DnsOutcome` and `fetch: Request -> Response`.

Three points about the code that the model keeps:

- The connection override is installed globally and never removed, so in a workbook run it piles up (see Findings).
- The `[Failed]` message is `Outcome.Failed`.
- Without a destination, the code reports the status together with the percent-decoded final URL. `Classify` does the same.

The network location follows `urlsplit` as CPython 3.12 implements it.

## Model

| member | source | states |
|---|---|---|
| PyStr.RFind | archer.py:63 | The result is the highest index at which the separator occurs. It is None exactly when the separator does not occur. |
| PyStr.RPartition | archer.py:63 | The three parts concatenate back to the input. The middle part is the separator at its last occurrence. When the separator is absent the result is `("", "", s)`. |
| PyStr.Replace | archer.py:90 | Replacement leaves the input unchanged when the old text does not occur. When the new text is at least as long as the old, the result is never shorter. ReplaceLeftmost completes the characterisation. |
| PyStr.ReplaceGrows | archer.py:90 | If the old text occurs and the new text is longer, the result is strictly longer. |
| PyStr.ReplaceKeepsOccurrence | archer.py:90 | If the new text starts with the old text, an occurrence survives the replacement. |
| PyStr.ReplaceKeepsPlainPrefix | archer.py:90 | Text in front of which no occurrence starts is copied unchanged, and the rest is replaced. |
| PyStr.ReplaceLeftmost | archer.py:90 | At the leftmost occurrence, the text in front is kept, the occurrence becomes the new text, and the rest is replaced in turn. With the no-occurrence identity, this determines the result: every non-overlapping occurrence, from the left. |
| UrlLib.Unquote | archer.py:143 | Decoding never lengthens a string; a result of the same length is the input itself. |
| UrlLib.UnquoteWithoutPercent | archer.py:143 | A string without `%` decodes to itself. |
| UrlLib.UnquoteKeepsPlainPrefix | archer.py:143 | Text without `%` in front of the rest is copied through by decoding. |
| UrlLib.UnquoteIdentityIffNoEscape | archer.py:143 | Decoding is the identity if and only if no well-formed `%HH` escape occurs anywhere in the string. |
| UrlLib.QuoteWith | archer.py:143 | Reference percent-encoder (partner of Unquote) for any choice of escaped characters and hex case: never shorter than its input; every character it leaves unescaped is one it was not asked to escape. |
| UrlLib.UnquoteQuoteWith | archer.py:143 | Round trip: for any ASCII string, any set of escaped characters that includes `%`, and either hex case for each escape, decoding the encoding gives the string back. |
| UrlLib.Quote | archer.py:143 | `quote`'s own spelling, upper-case escapes of every non-safe character: never shorter than its input; emits only safe characters, `%` and hex digits. |
| UrlLib.UnquoteQuote | archer.py:143 | Round trip: for any ASCII string, decoding its percent-encoding gives the string back. |
| UrlLib.LStripC0 | archer.py:79 | The result is a suffix of the input, with no leading control or space. Every character removed was a control or a space. |
| UrlLib.RemoveUnsafe | archer.py:79 | Tabs, CRs and LFs are deleted: none remains, the result is no longer than the input, and a string made only of them becomes empty. With RemoveUnsafeAppend and RemoveUnsafeKeepsSafe, every other character is kept, in order. |
| UrlLib.RemoveUnsafeAppend | archer.py:79 | Deleting tabs and line breaks distributes over concatenation. |
| UrlLib.RemoveUnsafeKeepsSafe | archer.py:79 | A string without tabs and line breaks is kept as it is. |
| UrlLib.Find | archer.py:79 | The first index of a character: it holds the character, no earlier index does, and the result is None exactly when the character is absent. |
| UrlLib.TakeNetloc | archer.py:79 | The longest prefix free of `/`, `?` and `#`: when it stops early, the next character is one of them. |
| UrlLib.AfterScheme | archer.py:79 | What is left after the scheme is removed is a suffix of the URL. |
| UrlLib.AfterSchemeIff | archer.py:79 | Suppose a valid scheme followed by `:` starts the URL. It necessarily ends at the first `:`, and everything after that `:` is what remains. When the step changes the URL, there is such a prefix; without one, the URL comes back unchanged. |
| UrlLib.AfterSchemeAt | archer.py:79 | A valid scheme before a `:` is taken off together with that `:`. |
| UrlLib.AfterValidScheme | archer.py:79 | For `scheme://tail`, what remains after the scheme step is `//tail`. |
| UrlLib.Netloc | archer.py:79 | The network location never contains `/`, `?` or `#`. |
| UrlLib.NetlocHasNoUnsafe | archer.py:79 | The network location never contains a tab or a line break. |
| UrlLib.NetlocAfterScheme | archer.py:79 | For `scheme://rest`, the network location is `rest`, with tabs and line breaks removed, up to its first `/`, `?` or `#`. |
| UrlLib.TakeNetlocStops | archer.py:79 | The network location stops exactly at the first delimiter after a delimiter-free host. |
| UrlLib.NoSchemeNoNetloc | archer.py:79 | Consider a URL with no valid scheme before any `:`, that starts with neither a control character, a space nor `/`, and holds no tab or line break. Its network location is empty. |
| Archer.HasScheme | archer.py:63-64 | `rpartition('://')[0]` is non-empty if and only if `://` occurs at some index greater than 0. |
| Archer.PrefixedHasScheme | archer.py:65-66 | Prepending a prefix ending in `://` always yields a URL with a scheme. |
| Archer.NormaliseSource | archer.py:63-69 | A URL that has a scheme is kept. It is an error if and only if the URL has no scheme and the flag is off, and the error is MissingSourceScheme. Otherwise the result is `http://` plus the URL, which then has a scheme. |
| Archer.NormaliseDestination | archer.py:71-77 | An absent or empty destination passes through unchanged. It is an error if and only if it is given, lacks a scheme and the flag is off. A given destination that already has a scheme comes back unchanged. A given destination stays given and gets a scheme: itself or `https://` plus itself. |
| Archer.NormaliseSourceIdempotent | archer.py:63-69 | Normalising a normalised source again changes nothing, whichever the flag. |
| Archer.NormaliseDestinationIdempotent | archer.py:71-77 | Normalising a normalised destination again changes nothing, whichever the flag. |
| Archer.SchemelessIff | archer.py:63-64 | A URL lacks a scheme if and only if it has no `://`, or its only `://` is at index 0. |
| Archer.QueryUrlCountsAsScheme | archer.py:63-64 | A `://` inside a query string counts as a scheme (last-occurrence semantics). |
| Archer.RelaxedSourceDomain | archer.py:64-79 | For a scheme-less source accepted by `--relaxed-source`, the domain is the typed text, with tabs and line breaks removed, up to its first `/`, `?` or `#`. |
| Archer.DomainIsAuthority | archer.py:79 | For `scheme://authority` followed by nothing or by a path, query or fragment, the domain is exactly the authority, including userinfo and port. Tabs and line breaks in the tail are deleted and change nothing. |
| Archer.DropLast | archer.py:83 | `s[:-1]`: the result plus the last character is the input; the empty string stays empty. |
| Archer.StagingHostname | archer.py:90 | A hostname without `edgekey` is its own staging hostname. |
| Archer.EdgeHostnames | archer.py:82-90 | An answer is obtained if and only if DNS answered. NoAnswer, NoNameservers and any other DNS failure each give their own error carrying the domain. The production hostname is the CNAME minus its last character. The staging hostname is the rewrite of the production one, and undoing the rewrite gives production back. Staging equals production if and only if production has no `edgekey`. |
| Archer.StagingUndone | archer.py:90 | Inverse: replacing `edgekey-staging` with `edgekey` in the staging hostname restores the production hostname. |
| Archer.StagingChangesIffMarker | archer.py:90 | The staging rewrite changes a hostname if and only if the hostname contains `edgekey`. |
| Archer.StagingNotReapplicable | archer.py:90 | Applying the rewrite to a staging hostname changes it again: the rewrite is not idempotent. |
| Archer.StagingMarkerStep | archer.py:90 | Every `edgekey` becomes `edgekey-staging`. The text before the first marker is kept, that marker is rewritten, and the rest is rewritten in turn. |
| Archer.NoMarkerStartsBefore | archer.py:90 | No `edgekey` starts inside a text that has no `e`, or no `k`, and is followed by a marker. |
| Archer.StagingAroundMarker | archer.py:90 | When a hostname holds exactly one `edgekey`, that occurrence is rewritten and everything else is kept. |
| Archer.RoutingPolicy | archer.py:107-124 | In staging mode every connection goes to the staging edge hostname on the requested port. In production mode connections are unchanged. |
| Archer.Classify | archer.py:141-158 | NoDestination if and only if no destination is given. With a destination, Success if and only if it equals the final URL as it is or decoded; Failed otherwise, carrying both URLs. NoDestination carries the status and the decoded final URL. |
| Archer.EncodedFinalUrlMatches | archer.py:143 | A destination matches a final URL that is any percent-encoded spelling of it, whichever characters are escaped and in whichever hex case. |
| Archer.PlainFinalUrl | archer.py:143 | When the final URL has no `%`, a destination matches only when it is equal. |
| Archer.CheckRedirect | archer.py:61-158 | A check completes if and only if both URLs normalise and DNS answers for the normalised source's network location. Otherwise the error is MissingSourceScheme, then MissingDestinationScheme, then the DNS error for that domain, in that order. On completion: the request URL is the normalised source. The domain is its network location. Production is that domain's first CNAME minus the root dot, and staging is production's rewrite. Connections follow the mode's routing. The outcome is the classification of the fetched response against the normalised destination. It is NoDestination if and only if no destination is given. |
| Archer.SchemeErrorsPrecedeNetwork | archer.py:63-79 | A scheme error is an error whose value does not depend on DNS or HTTP. |
| Archer.RelaxedDestinationCompared | archer.py:71-143 | With `--relaxed-destination`, a scheme-less destination is compared as `https://` plus itself against the fetched response. |
| Archer.ErrorsPrecedeRequest | archer.py:63-126 | Every error, a DNS failure included, is decided before the request at line 126: an erroneous result is the same whatever the HTTP fetch would do. |
| Archer.ValidateUsage | archer.py:161-178 | NoSourceGiven if and only if neither a source nor a file is given. FileWithSourceOrDestination if and only if a file is combined with a source or a destination. An accepted run has exactly one of source and file. It is Single exactly when a source is given, carrying that source and destination; otherwise it is Batch, carrying the file. |
| ConnectionPatch.Connect | archer.py:117-122 | The port is always kept. With no wrapper the address is unchanged. With wrappers, the host is the one from the first wrapper ever installed. |
| ConnectionPatch.InstallOverride | archer.py:115-124 | The new wrapper calls the previously installed `create_connection` and keeps every port. Every connection through it is the previous function's connection to `(hostname, port)`. |
| ConnectionPatch.ScopedOverride | archer.py:117-122 | Every connection goes to the given host on the requested port. |
| ConnectionPatch.FirstOverrideIsScoped | archer.py:115-124 | In a single check, the installed wrapper behaves exactly like the scoped override. |
| ConnectionPatch.BatchTargetsAsWritten | archer.py:184-192 | As written, in staging mode every batch row connects to the first row's staging hostname on its own port. In production mode every row goes where it asked. |
| ConnectionPatch.BatchTargetsScoped | archer.py:184-192 | Corrected: every row connects to its own staging hostname, or where it asked in production mode. |
| ConnectionPatch.SecondRowUsesFirstRowsEdge | archer.py:115-124 | A concrete pair of rows in which the second row reaches the first row's edge host. |
| Scenarios.NoColonNoScheme | archer.py:63-64 | A URL without any `:` has no scheme. |
| Scenarios.EdgeHostnameExample | archer.py:83-90 | The CNAME `edge-123.example-edgekey.net.` gives production `edge-123.example-edgekey.net` and staging `edge-123.example-edgekey-staging.net`. |
| Scenarios.UsageHostStaging | archer.py:90 | For the illustrative edge hostname, `www.akamai.com.edgekey.net` becomes `www.akamai.com.edgekey-staging.net`. The `k` in `akamai` does not get in the way. |
| Scenarios.TwoMarkersStaging | archer.py:90 | `edgekeyedgekey` becomes `edgekey-stagingedgekey-staging`: both markers are rewritten. |
| Scenarios.QueryUrlDomainEmpty | archer.py:63-79 | `example.com/?u=http://x` passes the scheme check because of the `://` in its query. Yet its network location is empty, so DNS is asked about the empty name. |
| Scenarios.StagingCheckExample | archer.py:61-158 | In a staging check of `https://blog.example.com/`, DNS is asked for `blog.example.com` and the request is routed to the staging edge hostname. |
| Scenarios.DecodedMatchExample | archer.py:7-9 | The usage example: destination `https://www.akamai.com/blog?` matches final URL `https://www.akamai.com/blog%3F`. |
| Scenarios.EscapedLetterMatches | archer.py:143 | A final URL `https://x/%62%6cog` matches the destination `https://x/blog`. It escapes safe letters, one in lower-case hex. |
| Scenarios.MissingSchemeExample | archer.py:63-69 | A source without any `:` (e.g. `blog.example.com/`) and without `--relaxed-source` stops with MissingSourceScheme, whatever the destination and whatever DNS and HTTP would answer. |
| Scenarios.FileWithSourceExample | archer.py:165-167 | A batch file given together with `--source` is refused. |

## Left out

- Argument parsing (archer.py:19-59). The parsed flags are the input `Flags`, and argparse's own errors and `--help` are not modelled.
- DNS lookups and HTTP requests. They are the parameters `resolve` and `fetch`; the redirect history walk and network errors raised by `requests` are not modelled.
- Verbose and coloured printing (archer.py:91-105, 128-139, 144-158). The model returns the `Outcome` the messages report.
- `quit()` ends the whole run. In the model, a check's fatal error is an `Err` result, and stopping the rest of a batch is not modelled.
- The workbook (archer.py:178-192): opening the file, the row counter and empty cells. An empty source cell (`None`) would raise in `rpartition`; the model takes the source as a string.
- DNS exceptions other than NoAnswer and NoNameservers (for example NXDOMAIN or a timeout) escape `check_redirect` and crash the program. The model gives them the separate error `UnhandledDnsFailure`.
- UrlLib.Unquote: decodes each `%HH` to the character with code HH. Python first collects escaped bytes and decodes them as UTF-8, so sequences of escapes at or above 0x80 come out differently.
- UrlLib.Netloc: follows CPython 3.12's `urlsplit` but leaves out its ValueErrors: unbalanced `[`/`]` in the netloc, `_check_bracketed_netloc` on a bracketed host, and the NFKC check `_checknetloc`. When one of these fires, the exception escapes `check_redirect` and ends the program before any DNS lookup. The model instead returns the netloc text. Scheme lower-casing is left out as well; it does not affect the netloc.
- Archer.CheckRedirect: routes the request through `RoutingPolicy`, the request-scoped override. That equals what archer.py:115-124 does only for the first staging check of a run (`ConnectionPatch.FirstOverrideIsScoped`). For workbook rows after the first, the code connects to the first row's staging host (`ConnectionPatch.BatchTargetsAsWritten`), while the Report names the row's own. The pipeline follows the corrected behaviour from Findings.
- Archer.RoutingPolicy: models the first check of a run only, for the same reason; the stacked wrappers of later rows are modelled in `ConnectionPatch`.
- PyStr.Replace: requires a non-empty old text; the program only calls it with `"edgekey"`.
- UrlLib.QuoteWith: covers ASCII input only, as a reference partner for the decoder. The same holds for UrlLib.Quote, which is one spelling of it.
- The process-wide mutable `connection.create_connection` is modelled as a `Connector` value. In the batch methods it is a local variable updated by the loop; memory aliasing and threads are not modelled.
- `target = False` in the `except IndexError` branch (archer.py:171-174) cannot happen, because reading an attribute never raises IndexError.

## Findings

| source | as written | input that shows it | evidently intended | confidence | as-written member | corrected member |
|---|---|---|---|---|---|---|
| archer.py:115-124 | Each staging check wraps whatever `connection.create_connection` is current and never puts the original back. The wrappers pile up, and the innermost (first-installed) hostname wins. | A workbook whose rows have different domains, on staging: row 2's request for `b.example.com:443` connects to row 1's `a.example-edgekey-staging.net:443` | Each request is routed to its own row's staging edge hostname, with the override scoped to that request | not executed | ConnectionPatch.BatchTargetsAsWritten | ConnectionPatch.BatchTargetsScoped |

=== FILE: archer.dfy ===
/** The decision pipeline of `check_redirect` and the usage checks of
    archer.py: scheme normalisation, the domain to resolve, edge hostnames
    from the CNAME answer, the connection routing, and the classification of
    the final response. DNS answers and HTTP responses are inputs. */
module Archer {
  import opened Wrappers
  import opened PyStr
  import opened UrlLib
  import opened ConnectionPatch

  /** The conditions under which the program stops a check (it calls
      `quit()`, or an exception escapes). */
  datatype CheckError =
    | MissingSourceScheme
    | MissingDestinationScheme
    | NoCnameRecord(domain: string)
    | DomainUnresolvable(domain: string)
    | UnhandledDnsFailure(domain: string)

  /** Python truthiness of an optional string: neither None nor empty. */
  predicate Given(s: Option<string>) {
    s.Some? && s.value != ""
  }

  // ---------------------------------------------------------------------
  // Scheme normalisation (lines 63-77)
  // ---------------------------------------------------------------------

  /** `url.rpartition('://')[0] != ''`. */
  function HasScheme(url: string): (b: bool)
    ensures b <==> exists k :: 0 < k && OccursAt(url, "://", k)
  {
    RPartition(url, "://").0 != ""
  }

  lemma HasSchemeAt(url: string, k: int)
    requires 0 < k && OccursAt(url, "://", k)
    ensures HasScheme(url)
  {
  }

  /** Prepending a scheme and `://` always produces a URL that has a scheme. */
  lemma PrefixedHasScheme(prefix: string, url: string)
    requires |prefix| > 3 && prefix[|prefix| - 3..] == "://"
    ensures HasScheme(prefix + url)
  {
    var u := prefix + url;
    assert u[|prefix| - 3..|prefix|] == "://";
    HasSchemeAt(u, |prefix| - 3);
  }

  /** Lines 63-69: a source URL without a scheme gets `http://` in front when
      relaxed and is an error otherwise; a URL with a scheme is kept. */
  function NormaliseSource(url: string, relaxed: bool): (r: Result<string, CheckError>)
    ensures r.Ok? ==> HasScheme(r.value)
    ensures HasScheme(url) ==> r == Ok(url)
    ensures r.Err? <==> !HasScheme(url) && !relaxed
    ensures r.Err? ==> r.error == MissingSourceScheme
    ensures r.Ok? ==> r.value == url || r.value == "http://" + url
  {
    if HasScheme(url) then Ok(url)
    else if relaxed then
      PrefixedHasScheme("http://", url);
      Ok("http://" + url)
    else Err(MissingSourceScheme)
  }

  /** Lines 71-77: a destination is normalised only when given; one without a
      scheme gets `https://` in front when relaxed and is an error otherwise. */
  function NormaliseDestination(target: Option<string>, relaxed: bool): (r: Result<Option<string>, CheckError>)
    ensures !Given(target) ==> r == Ok(target)
    ensures Given(target) && HasScheme(target.value) ==> r == Ok(target)
    ensures r.Err? <==> Given(target) && !HasScheme(target.value) && !relaxed
    ensures r.Err? ==> r.error == MissingDestinationScheme
    ensures r.Ok? ==> Given(r.value) == Given(target)
    ensures r.Ok? && Given(r.value) ==> HasScheme(r.value.value)
    ensures r.Ok? && Given(target) ==> r.value.value == target.value || r.value.value == "https://" + target.value
  {
    if !Given(target) then Ok(target)
    else if HasScheme(target.value) then Ok(target)
    else if relaxed then
      PrefixedHasScheme("https://", target.value);
      Ok(Some("https://" + target.value))
    else Err(MissingDestinationScheme)
  }

  /** Normalising twice changes nothing, whichever flag the second time. */
  lemma NormaliseSourceIdempotent(url: string, relaxed: bool, relaxedAgain: bool)
    requires NormaliseSource(url, relaxed).Ok?
    ensures NormaliseSource(NormaliseSource(url, relaxed).value, relaxedAgain) == NormaliseSource(url, relaxed)
  {
  }

  lemma NormaliseDestinationIdempotent(target: Option<string>, relaxed: bool, relaxedAgain: bool)
    requires NormaliseDestination(target, relaxed).Ok?
    ensures NormaliseDestination(NormaliseDestination(target, relaxed).value, relaxedAgain) == NormaliseDestination(target, relaxed)
  {
  }

  /** A URL lacks a scheme exactly when it has no `://` at all, or its only
      `://` stands at the very start. */
  lemma {:induction false} SchemelessIff(url: string)
    ensures !HasScheme(url) <==> !Contains(url, "://") || (OccursAt(url, "://", 0) && RFind(url, "://") == Some(0))
  {
    if Contains(url, "://") {
      var k := RFind(url, "://").value;
      if k > 0 { HasSchemeAt(url, k); }
    }
  }

  /** The example of a query that carries a URL: it counts as having a scheme. */
  lemma QueryUrlCountsAsScheme()
    ensures HasScheme("example.com/?u=http://x")
  {
    HasSchemeAt("example.com/?u=http://x", 19);
  }

  // ---------------------------------------------------------------------
  // The domain to resolve (line 79): `urlparse(source_url).netloc`, handed
  // to DNS as it is, userinfo and port included.
  // ---------------------------------------------------------------------

  /** For a scheme-less source made usable by the relaxed flag, the domain is
      what the user typed up to the first `/`, `?` or `#`. */
  lemma RelaxedSourceDomain(url: string)
    requires !HasScheme(url)
    ensures Netloc(NormaliseSource(url, true).value) == TakeNetloc(RemoveUnsafe(url))
  {
    assert "http://" + url == "http" + "://" + url;
    NetlocAfterScheme("http", url);
  }

  /** The whole authority is handed to DNS: for `scheme://authority` followed
      by nothing or by a path, query or fragment, the domain is `authority`,
      userinfo and port included. */
  lemma DomainIsAuthority(scheme: string, authority: string, tail: string)
    requires IsScheme(scheme)
    requires forall i :: 0 <= i < |authority| ==> !IsNetlocDelimiter(authority[i]) && !IsUnsafe(authority[i])
    requires tail == [] || IsNetlocDelimiter(tail[0])
    ensures Netloc(scheme + "://" + authority + tail) == authority
  {
    assert scheme + "://" + authority + tail == scheme + "://" + (authority + tail);
    NetlocAfterScheme(scheme, authority + tail);
    RemoveUnsafeAppend(authority, tail);
    RemoveUnsafeKeepsSafe(authority);
    var clean := RemoveUnsafe(tail);
    assert clean == [] || IsNetlocDelimiter(clean[0]) by {
      if tail != [] {
        assert !IsUnsafe(tail[0]);
        assert clean == [tail[0]] + RemoveUnsafe(tail[1..]);
      }
    }
    TakeNetlocStops(authority, clean);
  }

  // ---------------------------------------------------------------------
  // Edge hostnames from the CNAME answer (lines 81-90)
  // ---------------------------------------------------------------------

  /** What `dns.resolver.resolve(domain, 'CNAME')` does: return answers (the
      text of the first one is kept), or raise NoAnswer, NoNameservers or
      some other exception that archer.py does not catch. */
  datatype DnsOutcome = Answer(firstCname: string) | NoAnswer | NoNameservers | OtherDnsFailure

  datatype Route = Route(production: string, staging: string)

  /** Python's `s[:-1]`. */
  function DropLast(s: string): (r: string)
    ensures s != [] ==> s == r + [s[|s| - 1]]
    ensures s == [] ==> r == []
  {
    if s == [] then [] else s[..|s| - 1]
  }

  /** Line 90: `prod.replace("edgekey", "edgekey-staging")`. */
  function StagingHostname(production: string): (s: string)
    ensures !Contains(production, "edgekey") ==> s == production
  {
    Replace(production, "edgekey", "edgekey-staging")
  }

  /** Lines 82-90: the production edge hostname is the first CNAME's text
      without its last character (the root dot); the staging one marks every
      `edgekey` as `edgekey-staging`. The two exceptions the program catches
      are two distinct errors. */
  function EdgeHostnames(domain: string, dns: DnsOutcome): (r: Result<Route, CheckError>)
    ensures r.Ok? <==> dns.Answer?
    ensures dns.NoAnswer? ==> r == Err(NoCnameRecord(domain))
    ensures dns.NoNameservers? ==> r == Err(DomainUnresolvable(domain))
    ensures dns.OtherDnsFailure? ==> r == Err(UnhandledDnsFailure(domain))
    ensures r.Ok? && dns.firstCname != [] ==>
              dns.firstCname == r.value.production + [dns.firstCname[|dns.firstCname| - 1]]
    ensures r.Ok? ==> r.value.staging == StagingHostname(r.value.production)
    ensures r.Ok? ==> Replace(r.value.staging, "edgekey-staging", "edgekey") == r.value.production
    ensures r.Ok? ==> (r.value.staging == r.value.production <==> !Contains(r.value.production, "edgekey"))
  {
    match dns
    case Answer(cname) =>
      var production := DropLast(cname);
      StagingUndone(production);
      StagingChangesIffMarker(production);
      Ok(Route(production, StagingHostname(production)))
    case NoAnswer => Err(NoCnameRecord(domain))
    case NoNameservers => Err(DomainUnresolvable(domain))
    case OtherDnsFailure => Err(UnhandledDnsFailure(domain))
  }

  /** One step back through the staging replacement: when its output starts
      with a text `w` that differs from `edgekey-staging` at some position
      `j`, the first character of `w` was copied from the input, and the
      rest of `w` starts the replacement of the input's remainder. */
  lemma StagingStepBack(t: string, w: string, j: nat)
    requires |w| >= 8 && j < |w| && j < 15 && w[j] != "edgekey-staging"[j]
    requires |StagingHostname(t)| >= |w| && StagingHostname(t)[..|w|] == w
    ensures |t| >= 1 && t[0] == w[0]
    ensures |StagingHostname(t[1..])| >= |w| - 1 && StagingHostname(t[1..])[..|w| - 1] == w[1..]
  {
    var r := StagingHostname(t);
    if |t| >= 7 && t[..7] != "edgekey" {
      var rest := StagingHostname(t[1..]);
      assert r == [t[0]] + rest;
      assert r[1..] == rest;
      assert rest[..|w| - 1] == r[1..|w|];
    }
  }

  /** Walking back through the staging replacement: when its output starts
      with `v + "-staging"` and no `e` in `v` is followed by a `d`, the
      input starts with `v`. */
  lemma {:induction false} StagingBackThrough(t: string, v: string)
    requires forall m :: 0 <= m < |v| - 1 ==> !(v[m] == 'e' && v[m + 1] == 'd')
    requires |StagingHostname(t)| >= |v| + 8 && StagingHostname(t)[..|v| + 8] == v + "-staging"
    ensures |t| >= |v| && t[..|v|] == v
    decreases |v|
  {
    if v != [] {
      var w := v + "-staging";
      assert w[1] == (if |v| >= 2 then v[1] else '-');
      StagingStepBack(t, w, if v[0] == 'e' then 1 else 0);
      assert w[1..] == v[1..] + "-staging";
      StagingBackThrough(t[1..], v[1..]);
      assert t[..|v|] == [t[0]] + t[1..][..|v| - 1];
    }
  }

  /** The first seven characters of a string are its head followed by the
      first six of its tail. */
  lemma HeadAndTail(p: string)
    ensures |p| >= 7 ==> p[..7] == [p[0]] + p[1..][..6]
  {
  }

  /** A staging hostname starts with `edgekey-staging` only when the
      production one starts with `edgekey`. */
  lemma StagingMarkerAtFront(p: string)
    requires |p| >= 7 && p[..7] != "edgekey"
    ensures !(|StagingHostname(p)| >= 15 && StagingHostname(p)[..15] == "edgekey-staging")
  {
    var s := StagingHostname(p);
    if |s| >= 15 && s[..15] == "edgekey-staging" {
      var rest := StagingHostname(p[1..]);
      assert s == [p[0]] + rest;
      assert s[1..] == rest;
      assert rest[..14] == s[1..15];
      assert "edgekey-staging"[1..] == "dgekey" + "-staging";
      StagingBackThrough(p[1..], "dgekey");
      HeadAndTail(p);
      assert false;
    }
  }

  /** The staging hostname determines the production one: replacing every
      `edgekey-staging` by `edgekey` gives it back. */
  lemma {:induction false} StagingUndone(p: string)
    ensures Replace(StagingHostname(p), "edgekey-staging", "edgekey") == p
    decreases |p|
  {
    var s := StagingHostname(p);
    if |p| < 7 {
      assert s == p;
    } else if p[..7] == "edgekey" {
      var rest := StagingHostname(p[7..]);
      StagingUndone(p[7..]);
      assert s == "edgekey-staging" + rest;
      assert s[..15] == "edgekey-staging";
      assert s[15..] == rest;
      assert p == "edgekey" + p[7..];
    } else {
      var rest := StagingHostname(p[1..]);
      StagingUndone(p[1..]);
      assert s == [p[0]] + rest;
      StagingMarkerAtFront(p);
      if |s| < 15 {
        assert |rest| < 15;
        assert Replace(rest, "edgekey-staging", "edgekey") == rest;
      }
      assert s[1..] == rest;
      assert p == [p[0]] + p[1..];
    }
  }

  /** The staging hostname differs from the production one exactly when the
      production one contains the marker. */
  lemma StagingChangesIffMarker(p: string)
    ensures StagingHostname(p) == p <==> !Contains(p, "edgekey")
  {
    if Contains(p, "edgekey") {
      ReplaceGrows(p, "edgekey", "edgekey-staging");
    }
  }

  /** The staging form must be computed from the production form: applied to
      its own output, the replacement changes it again. */
  lemma StagingNotReapplicable(p: string)
    requires Contains(p, "edgekey")
    ensures StagingHostname(StagingHostname(p)) != StagingHostname(p)
  {
    ReplaceKeepsOccurrence(p, "edgekey", "edgekey-staging");
    StagingChangesIffMarker(StagingHostname(p));
  }

  /** Every `edgekey` holds a `k`, so text without one has no marker. */
  lemma NoMarkerWithoutK(y: string)
    requires 'k' !in y
    ensures !Contains(y, "edgekey")
  {
    forall k | 0 <= k <= |y| - 7 ensures !OccursAt(y, "edgekey", k) {
      assert y[k + 4] != 'k';
      assert y[k..k + 7][4] == y[k + 4];
    }
  }

  /** Every marker is rewritten, from the left: in front of the first one
      the hostname is kept, that one becomes `edgekey-staging`, and the
      rest is rewritten in turn. */
  lemma StagingMarkerStep(x: string, y: string)
    requires forall k :: 0 <= k < |x| ==> !OccursAt(x + "edgekey" + y, "edgekey", k)
    ensures StagingHostname(x + "edgekey" + y) == x + "edgekey-staging" + StagingHostname(y)
  {
    var h := x + "edgekey" + y;
    assert h[|x|..|x| + 7] == "edgekey";
    ReplaceLeftmost(h, "edgekey", "edgekey-staging", |x|);
    assert h[..|x|] == x && h[|x| + 7..] == y;
  }

  /** A hostname with a single marker gets exactly that one rewritten. */
  lemma StagingAroundMarker(host: string, x: string, y: string)
    requires host == x + "edgekey" + y
    requires forall k :: 0 <= k < |x| ==> !OccursAt(host, "edgekey", k)
    requires !Contains(y, "edgekey")
    ensures StagingHostname(host) == x + "edgekey-staging" + y
  {
    StagingMarkerStep(x, y);
  }

  /** No marker starts inside a text without an `e`, or without a `k`, that
      stands in front of one. */
  lemma NoMarkerStartsBefore(x: string, y: string)
    requires 'e' !in x || 'k' !in x
    ensures forall k :: 0 <= k < |x| ==> !OccursAt(x + "edgekey" + y, "edgekey", k)
  {
    var h := x + "edgekey" + y;
    forall k | 0 <= k < |x| ensures !OccursAt(h, "edgekey", k) {
      if k + 7 <= |h| {
        if 'e' !in x {
          assert h[k] == x[k];
          assert h[k..k + 7][0] == h[k];
        } else {
          assert h[k + 4] != 'k' by {
            if k + 4 < |x| { assert h[k + 4] == x[k + 4]; }
            else { assert h[k + 4] == "edgekey"[k + 4 - |x|]; }
          }
          assert h[k..k + 7][4] == h[k + 4];
        }
      }
    }
  }

  // ---------------------------------------------------------------------
  // Connection routing (lines 107-124)
  // ---------------------------------------------------------------------

  /** The routing policy for one request: in staging mode every connection
      goes to the staging hostname on the requested port; in production mode
      nothing is rewritten. Request-scoped: see ConnectionPatch. */
  function RoutingPolicy(production: bool, route: Route): (c: Connector)
    ensures production ==> forall a: Address :: Connect(c, a) == a
    ensures !production ==> forall a: Address :: Connect(c, a) == (route.staging, a.1)
  {
    if production then Direct else ScopedOverride(route.staging)
  }

  // ---------------------------------------------------------------------
  // Classification of the final response (lines 141-158)
  // ---------------------------------------------------------------------

  /** The final response after redirects: `response.status_code`, `response.url`. */
  datatype Response = Response(status: int, url: string)

  datatype Outcome =
    | NoDestination(status: int, url: string)
    | Success(url: string)
    | Failed(url: string, expected: string)

  /** With a destination: success when it equals the final URL as it is or
      percent-decoded. Without one: the status and the decoded final URL. */
  function Classify(target: Option<string>, response: Response): (o: Outcome)
    ensures o.NoDestination? <==> !Given(target)
    ensures Given(target) ==>
              (o.Success? <==> target.value == response.url || target.value == Unquote(response.url))
    ensures o.Failed? ==> o.expected == target.value && o.url == response.url
    ensures o.Success? ==> o.url == response.url
    ensures o.NoDestination? ==> o.status == response.status && o.url == Unquote(response.url)
  {
    if Given(target) then
      if target.value == response.url || target.value == Unquote(response.url) then Success(response.url)
      else Failed(response.url, target.value)
    else NoDestination(response.status, Unquote(response.url))
  }

  /** A destination matches a final URL that spells it percent-encoded,
      whichever characters are escaped and in whichever hex case. */
  lemma {:induction false} EncodedFinalUrlMatches(target: string, status: int, escape: char -> bool, lower: char -> bool)
    requires target != "" && IsAscii(target) && escape('%')
    ensures Classify(Some(target), Response(status, QuoteWith(target, escape, lower))).Success?
  {
    UnquoteQuoteWith(target, escape, lower);
  }

  /** A final URL with no `%` matches only itself. */
  lemma PlainFinalUrl(target: string, response: Response)
    requires target != "" && '%' !in response.url
    ensures Classify(Some(target), response).Success? <==> target == response.url
  {
    UnquoteWithoutPercent(response.url);
  }

  // ---------------------------------------------------------------------
  // One check (lines 61-158)
  // ---------------------------------------------------------------------

  /** The flags that shape one check. */
  datatype Config = Config(relaxedSource: bool, relaxedDestination: bool, production: bool)

  /** The request the program issues: the normalised source URL, with the
      routing policy in force while it is fetched. */
  datatype Request = Request(url: string, policy: Connector)

  datatype Report = Report(domain: string, route: Route, request: Request, outcome: Outcome)

  /** `check_redirect(source, target)`: `resolve` stands for the CNAME lookup
      and `fetch` for `requests.get` with redirects followed. */
  function CheckRedirect(cfg: Config, source: string, target: Option<string>,
                         resolve: string -> DnsOutcome, fetch: Request -> Response): (r: Result<Report, CheckError>)
    // when a check completes, and which error stops it otherwise
    ensures r.Ok? <==> && NormaliseSource(source, cfg.relaxedSource).Ok?
                       && NormaliseDestination(target, cfg.relaxedDestination).Ok?
                       && resolve(Netloc(NormaliseSource(source, cfg.relaxedSource).value)).Answer?
    ensures NormaliseSource(source, cfg.relaxedSource).Err? ==> r == Err(MissingSourceScheme)
    ensures NormaliseSource(source, cfg.relaxedSource).Ok? && NormaliseDestination(target, cfg.relaxedDestination).Err? ==>
              r == Err(MissingDestinationScheme)
    ensures NormaliseSource(source, cfg.relaxedSource).Ok? && NormaliseDestination(target, cfg.relaxedDestination).Ok? ==>
              var domain := Netloc(NormaliseSource(source, cfg.relaxedSource).value);
              && (resolve(domain).NoAnswer? ==> r == Err(NoCnameRecord(domain)))
              && (resolve(domain).NoNameservers? ==> r == Err(DomainUnresolvable(domain)))
              && (resolve(domain).OtherDnsFailure? ==> r == Err(UnhandledDnsFailure(domain)))
    // the request: the normalised source, whose network location was resolved
    ensures r.Ok? ==> r.value.request.url == (if HasScheme(source) then source else "http://" + source)
    ensures r.Ok? ==> HasScheme(r.value.request.url) && r.value.domain == Netloc(r.value.request.url)
    // the edge hostnames come from the first CNAME of that domain
    ensures r.Ok? ==> resolve(r.value.domain).Answer?
    ensures r.Ok? ==> r.value.route.production == DropLast(resolve(r.value.domain).firstCname)
    ensures r.Ok? ==> r.value.route.staging == StagingHostname(r.value.route.production)
    // where the request's connections go
    ensures r.Ok? && !cfg.production ==>
              forall a: Address :: Connect(r.value.request.policy, a) == (r.value.route.staging, a.1)
    ensures r.Ok? && cfg.production ==> forall a: Address :: Connect(r.value.request.policy, a) == a
    // the final response of that request, against the normalised destination
    ensures r.Ok? ==> r.value.outcome == Classify(NormaliseDestination(target, cfg.relaxedDestination).value,
                                                  fetch(r.value.request))
    ensures r.Ok? ==> (r.value.outcome.NoDestination? <==> !Given(target))
  {
    var src :- NormaliseSource(source, cfg.relaxedSource);
    var dst :- NormaliseDestination(target, cfg.relaxedDestination);
    var domain := Netloc(src);
    var route :- EdgeHostnames(domain, resolve(domain));
    var request := Request(src, RoutingPolicy(cfg.production, route));
    Ok(Report(domain, route, request, Classify(dst, fetch(request))))
  }

  /** A scheme error is decided before any lookup or request: the result
      does not depend on what DNS or HTTP would do. */
  lemma SchemeErrorsPrecedeNetwork(cfg: Config, source: string, target: Option<string>,
                                   resolve1: string -> DnsOutcome, fetch1: Request -> Response,
                                   resolve2: string -> DnsOutcome, fetch2: Request -> Response)
    requires NormaliseSource(source, cfg.relaxedSource).Err?
          || NormaliseDestination(target, cfg.relaxedDestination).Err?
    ensures CheckRedirect(cfg, source, target, resolve1, fetch1).Err?
    ensures CheckRedirect(cfg, source, target, resolve1, fetch1) == CheckRedirect(cfg, source, target, resolve2, fetch2)
  {
  }

  /** With `--relaxed-destination`, a scheme-less destination is compared
      with `https://` in front of it. */
  lemma RelaxedDestinationCompared(cfg: Config, source: string, target: string,
                                   resolve: string -> DnsOutcome, fetch: Request -> Response)
    requires cfg.relaxedDestination && target != "" && !HasScheme(target)
    ensures var r := CheckRedirect(cfg, source, Some(target), resolve, fetch);
            r.Ok? ==> r.value.outcome == Classify(Some("https://" + target), fetch(r.value.request))
  {
  }

  /** Every error, a DNS failure included, stops the check before the
      request is made: an error does not depend on `fetch`. */
  lemma ErrorsPrecedeRequest(cfg: Config, source: string, target: Option<string>,
                             resolve: string -> DnsOutcome, fetch1: Request -> Response, fetch2: Request -> Response)
    ensures CheckRedirect(cfg, source, target, resolve, fetch1).Err? ==>
              CheckRedirect(cfg, source, target, resolve, fetch1) == CheckRedirect(cfg, source, target, resolve, fetch2)
  {
  }

  // ---------------------------------------------------------------------
  // Usage checks (lines 161-176)
  // ---------------------------------------------------------------------

  /** The command-line flags (lines 19-59); absent options are None. */
  datatype Flags = Flags(file: Option<string>, source: Option<string>, destination: Option<string>,
                         relaxedSource: bool, relaxedDestination: bool, production: bool, verbose: bool)

  datatype UsageError = NoSourceGiven | FileWithSourceOrDestination

  /** What runs once the flags are accepted: one check, or a batch file. */
  datatype Mode = Single(source: string, destination: Option<string>) | Batch(file: string)

  function ValidateUsage(f: Flags): (r: Result<Mode, UsageError>)
    ensures r == Err(NoSourceGiven) <==> !Given(f.source) && !Given(f.file)
    ensures r == Err(FileWithSourceOrDestination) <==>
              Given(f.file) && (Given(f.source) || Given(f.destination))
    ensures r.Ok? ==> (Given(f.source) <==> !Given(f.file))
    ensures r.Ok? ==> (r.value.Single? <==> Given(f.source))
    ensures r.Ok? && r.value.Single? ==> Some(r.value.source) == f.source && r.value.destination == f.destination
    ensures r.Ok? && r.value.Batch? ==> Some(r.value.file) == f.file && !Given(f.destination)
  {
    if !Given(f.source) && !Given(f.file) then Err(NoSourceGiven)
    else if Given(f.file) && (Given(f.destination) || Given(f.source)) then Err(FileWithSourceOrDestination)
    else if Given(f.source) then Ok(Single(f.source.value, f.destination))
    else Ok(Batch(f.file.value))
  }
}

=== FILE: connection.dfy ===
/** How outbound connections are routed while a check runs. The program
    replaces urllib3's `connection.create_connection` with a wrapper that
    ignores the requested host, keeps the port and calls the function it
    replaced with the staging edge hostname. A routing policy is modelled
    as the chain of wrappers installed so far. */
module ConnectionPatch {

  /** A connection address: (host, port). */
  type Address = (string, int)

  /** `Direct` is urllib3's own `create_connection`, which connects to the
      address it is given; `Patched(h, inner)` is a wrapper that passes
      `(h, port)` on to `inner`. */
  datatype Connector = Direct | Patched(hostname: string, inner: Connector)

  /** The hostname of the first wrapper ever installed: the innermost one. */
  function FirstInstalled(c: Connector): string
    requires c.Patched?
  {
    if c.inner.Direct? then c.hostname else FirstInstalled(c.inner)
  }

  /** The address a connection attempt for `address` really goes to. */
  function Connect(c: Connector, address: Address): (a: Address)
    ensures a.1 == address.1
    ensures c.Direct? ==> a == address
    ensures c.Patched? ==> a.0 == FirstInstalled(c)
  {
    match c
    case Direct => address
    case Patched(h, inner) => Connect(inner, (h, address.1))
  }

  /** Installing the override as the program does (lines 115-124): the new
      wrapper calls whatever `create_connection` was in place, and nothing
      ever puts the previous one back. */
  function InstallOverride(current: Connector, hostname: string): (c: Connector)
    ensures c.Patched? && c.inner == current
    ensures forall a: Address :: Connect(c, a) == Connect(current, (hostname, a.1))
    ensures forall a: Address :: Connect(c, a).1 == a.1
  {
    Patched(hostname, current)
  }

  /** The request-scoped override: connections of this one request go to
      `hostname`, whatever was installed for earlier requests. */
  function ScopedOverride(hostname: string): (c: Connector)
    ensures forall a: Address :: Connect(c, a) == (hostname, a.1)
  {
    Patched(hostname, Direct)
  }

  /** In a single check the global `create_connection` starts out as
      urllib3's own, so the installed wrapper behaves like the scoped one. */
  lemma FirstOverrideIsScoped(hostname: string, a: Address)
    ensures Connect(InstallOverride(Direct, hostname), a) == Connect(ScopedOverride(hostname), a)
  {
  }

  /** The batch loop as written (lines 184-192, each row running lines
      107-124): in staging mode every row installs its wrapper on top of the
      previous rows' wrappers. `stagings[i]` is row i's staging hostname and
      `requested[i]` the address its request asks for; the result holds the
      address each row's first connection really goes to. */
  method BatchTargetsAsWritten(production: bool, stagings: seq<string>, requested: seq<Address>)
    returns (targets: seq<Address>)
    requires |stagings| == |requested|
    ensures |targets| == |stagings|
    ensures production ==> targets == requested
    ensures !production ==> forall i :: 0 <= i < |targets| ==> targets[i] == (stagings[0], requested[i].1)
  {
    var createConnection := Direct;
    targets := [];
    for i := 0 to |stagings|
      invariant |targets| == i
      invariant production ==> createConnection == Direct && targets == requested[..i]
      invariant !production && i > 0 ==> createConnection.Patched? && FirstInstalled(createConnection) == stagings[0]
      invariant !production && i == 0 ==> createConnection == Direct
      invariant !production ==> forall j :: 0 <= j < i ==> targets[j] == (stagings[0], requested[j].1)
    {
      if !production {
        createConnection := InstallOverride(createConnection, stagings[i]);
      }
      targets := targets + [Connect(createConnection, requested[i])];
    }
  }

  /** The same batch with a request-scoped override: every row connects to
      its own staging hostname, or where it asked to in production mode. */
  method BatchTargetsScoped(production: bool, stagings: seq<string>, requested: seq<Address>)
    returns (targets: seq<Address>)
    requires |stagings| == |requested|
    ensures |targets| == |stagings|
    ensures production ==> targets == requested
    ensures !production ==> forall i :: 0 <= i < |targets| ==> targets[i] == (stagings[i], requested[i].1)
  {
    targets := [];
    for i := 0 to |stagings|
      invariant |targets| == i
      invariant production ==> targets == requested[..i]
      invariant !production ==> forall j :: 0 <= j < i ==> targets[j] == (stagings[j], requested[j].1)
    {
      var policy := if production then Direct else ScopedOverride(stagings[i]);
      targets := targets + [Connect(policy, requested[i])];
    }
  }

  /** Two rows with different staging hostnames: as written, the second row
      connects to the first row's edge host, not its own. */
  lemma SecondRowUsesFirstRowsEdge()
    ensures var c := InstallOverride(InstallOverride(Direct, "a.example-edgekey-staging.net"), "b.example-edgekey-staging.net");
            Connect(c, ("b.example.com", 443)) == ("a.example-edgekey-staging.net", 443)
  {
  }
}

=== FILE: pystr.dfy ===
/** The Python string methods the checker relies on: `in`, `rfind`,
    `rpartition` and `replace`, over Dafny strings. */
module PyStr {
  import opened Wrappers

  /** `pat` occurs in `s` starting at index `k`. */
  predicate OccursAt(s: string, pat: string, k: int) {
    0 <= k && k + |pat| <= |s| && s[k..k + |pat|] == pat
  }

  /** Python's `pat in s`. */
  predicate Contains(s: string, pat: string) {
    exists k | 0 <= k <= |s| - |pat| :: OccursAt(s, pat, k)
  }

  lemma OccursInPrefix(s: string, pat: string, n: nat, k: int)
    requires n <= |s| && OccursAt(s[..n], pat, k)
    ensures OccursAt(s, pat, k)
  {
    assert s[..n][k..k + |pat|] == s[k..k + |pat|];
  }

  lemma OccursInSuffix(s: string, pat: string, n: nat, k: int)
    requires n <= |s|
    ensures OccursAt(s[n..], pat, k) <==> k >= 0 && OccursAt(s, pat, n + k)
  {
    if k >= 0 && n + k + |pat| <= |s| {
      assert s[n..][k..k + |pat|] == s[n + k..n + k + |pat|];
    }
  }

  /** Python's `s.rfind(pat)`: the highest index at which `pat` starts, if any. */
  function RFind(s: string, pat: string): (r: Option<nat>)
    ensures r.Some? ==> OccursAt(s, pat, r.value)
    ensures r.Some? ==> forall k :: r.value < k ==> !OccursAt(s, pat, k)
    ensures r.None? <==> !Contains(s, pat)
    decreases |s|
  {
    if |s| < |pat| then None
    else if s[|s| - |pat|..] == pat then
      assert OccursAt(s, pat, |s| - |pat|) by { assert s[|s| - |pat|..|s|] == s[|s| - |pat|..]; }
      Some(|s| - |pat|)
    else
      var r := RFind(s[..|s| - 1], pat);
      assert forall k :: OccursAt(s, pat, k) ==> OccursAt(s[..|s| - 1], pat, k) by {
        forall k | OccursAt(s, pat, k) ensures OccursAt(s[..|s| - 1], pat, k) {
          assert k + |pat| < |s|;
          assert s[..|s| - 1][k..k + |pat|] == s[k..k + |pat|];
        }
      }
      if r.Some? then OccursInPrefix(s, pat, |s| - 1, r.value); r else r
  }

  /** Python's `s.rpartition(sep)`: split around the last occurrence of `sep`;
      when `sep` does not occur, two empty strings followed by `s`. Python
      raises ValueError for an empty separator. */
  function RPartition(s: string, sep: string): (r: (string, string, string))
    requires sep != ""
    ensures r.0 + r.1 + r.2 == s
    ensures Contains(s, sep) ==> r.1 == sep && OccursAt(s, sep, |r.0|)
    ensures Contains(s, sep) ==> forall k :: |r.0| < k ==> !OccursAt(s, sep, k)
    ensures !Contains(s, sep) ==> r == ("", "", s)
  {
    match RFind(s, sep)
    case Some(k) =>
      assert s[..k] + sep + s[k + |sep|..] == s by {
        assert s[k..k + |sep|] == sep;
        assert s == s[..k] + s[k..k + |sep|] + s[k + |sep|..];
      }
      (s[..k], sep, s[k + |sep|..])
    case None => ("", "", s)
  }

  /** Python's `s.replace(oldText, newText)` for a non-empty `oldText`:
      scanning left to right, every non-overlapping occurrence of `oldText`
      is replaced by `newText`. */
  function Replace(s: string, oldText: string, newText: string): (r: string)
    requires oldText != ""
    ensures !Contains(s, oldText) ==> r == s
    ensures |newText| >= |oldText| ==> |r| >= |s|
    decreases |s|
  {
    if |s| < |oldText| then s
    else if s[..|oldText|] == oldText then
      assert OccursAt(s, oldText, 0) by { assert s[0..|oldText|] == s[..|oldText|]; }
      newText + Replace(s[|oldText|..], oldText, newText)
    else
      var r := Replace(s[1..], oldText, newText);
      assert Contains(s[1..], oldText) ==> Contains(s, oldText) by {
        if Contains(s[1..], oldText) {
          var k :| 0 <= k <= |s[1..]| - |oldText| && OccursAt(s[1..], oldText, k);
          OccursInSuffix(s, oldText, 1, k);
        }
      }
      [s[0]] + r
  }

  /** With a replacement at least as long as the text it replaces, an
      occurrence makes the result strictly longer. */
  lemma {:induction false} ReplaceGrows(s: string, oldText: string, newText: string)
    requires oldText != "" && |newText| > |oldText|
    requires Contains(s, oldText)
    ensures |Replace(s, oldText, newText)| > |s|
    decreases |s|
  {
    if s[..|oldText|] == oldText {
      assert |Replace(s[|oldText|..], oldText, newText)| >= |s| - |oldText|;
    } else {
      var k :| 0 <= k <= |s| - |oldText| && OccursAt(s, oldText, k);
      assert s[0..|oldText|] == s[..|oldText|];
      OccursInSuffix(s, oldText, 1, k - 1);
      ReplaceGrows(s[1..], oldText, newText);
    }
  }

  /** When the replacement begins with the replaced text, replacing keeps at
      least one occurrence of it. */
  lemma {:induction false} ReplaceKeepsOccurrence(s: string, oldText: string, newText: string)
    requires oldText != "" && |oldText| <= |newText| && newText[..|oldText|] == oldText
    requires Contains(s, oldText)
    ensures Contains(Replace(s, oldText, newText), oldText)
    decreases |s|
  {
    var r := Replace(s, oldText, newText);
    if s[..|oldText|] == oldText {
      assert r[..|oldText|] == newText[..|oldText|];
      assert OccursAt(r, oldText, 0);
    } else {
      var k :| 0 <= k <= |s| - |oldText| && OccursAt(s, oldText, k);
      assert s[0..|oldText|] == s[..|oldText|];
      OccursInSuffix(s, oldText, 1, k - 1);
      ReplaceKeepsOccurrence(s[1..], oldText, newText);
      var t := Replace(s[1..], oldText, newText);
      var j :| 0 <= j <= |t| - |oldText| && OccursAt(t, oldText, j);
      assert r == [s[0]] + t;
      assert r[1..] == t;
      OccursInSuffix(r, oldText, 1, j);
      assert OccursAt(r, oldText, j + 1);
    }
  }

  /** Where no occurrence starts at the front, the first character is copied. */
  lemma ReplaceSkipsHead(s: string, oldText: string, newText: string)
    requires oldText != "" && s != [] && !OccursAt(s, oldText, 0)
    ensures Replace(s, oldText, newText) == [s[0]] + Replace(s[1..], oldText, newText)
  {
    if |s| < |oldText| {
      assert Replace(s[1..], oldText, newText) == s[1..];
      assert s == [s[0]] + s[1..];
    } else {
      assert s[..|oldText|] != oldText by { assert s[0..|oldText|] == s[..|oldText|]; }
    }
  }

  lemma NoOccurrenceInTail(s: string, n: nat, pat: string)
    requires 1 <= n <= |s|
    requires forall k :: 0 <= k < n ==> !OccursAt(s, pat, k)
    ensures forall k :: 0 <= k < n - 1 ==> !OccursAt(s[1..], pat, k)
  {
    forall k | 0 <= k < n - 1 ensures !OccursAt(s[1..], pat, k) {
      OccursInSuffix(s, pat, 1, k);
    }
  }

  lemma ReplacePlainStep(s: string, n: nat, oldText: string, newText: string)
    requires oldText != "" && 1 <= n <= |s| && !OccursAt(s, oldText, 0)
    requires Replace(s[1..], oldText, newText) == s[1..n] + Replace(s[n..], oldText, newText)
    ensures Replace(s, oldText, newText) == s[..n] + Replace(s[n..], oldText, newText)
  {
    var rest := Replace(s[n..], oldText, newText);
    ReplaceSkipsHead(s, oldText, newText);
    assert [s[0]] + (s[1..n] + rest) == ([s[0]] + s[1..n]) + rest;
    assert [s[0]] + s[1..n] == s[..n];
  }

  /** Text in front of which no occurrence starts is copied as it is. */
  lemma {:induction false} ReplaceKeepsPlainPrefix(s: string, n: nat, oldText: string, newText: string)
    requires oldText != "" && n <= |s|
    requires forall k :: 0 <= k < n ==> !OccursAt(s, oldText, k)
    ensures Replace(s, oldText, newText) == s[..n] + Replace(s[n..], oldText, newText)
    decreases n
  {
    if n == 0 {
      assert s[n..] == s;
    } else {
      NoOccurrenceInTail(s, n, oldText);
      ReplaceKeepsPlainPrefix(s[1..], n - 1, oldText, newText);
      assert s[1..][..n - 1] == s[1..n] && s[1..][n - 1..] == s[n..];
      ReplacePlainStep(s, n, oldText, newText);
    }
  }

  lemma ReplaceAtFront(t: string, oldText: string, newText: string)
    requires oldText != "" && |t| >= |oldText| && t[..|oldText|] == oldText
    ensures Replace(t, oldText, newText) == newText + Replace(t[|oldText|..], oldText, newText)
  {
  }

  /** Replacement at the leftmost occurrence: the text in front of it is kept,
      the occurrence becomes `newText`, and the rest is replaced in turn.
      With the identity for text holding no occurrence, this determines the
      result: every non-overlapping occurrence, from the left, is replaced. */
  lemma {:induction false} ReplaceLeftmost(s: string, oldText: string, newText: string, k: int)
    requires oldText != ""
    requires OccursAt(s, oldText, k)
    requires forall j :: 0 <= j < k ==> !OccursAt(s, oldText, j)
    ensures Replace(s, oldText, newText) == s[..k] + newText + Replace(s[k + |oldText|..], oldText, newText)
  {
    ReplaceKeepsPlainPrefix(s, k, oldText, newText);
    var t := s[k..];
    assert t[..|oldText|] == s[k..k + |oldText|];
    ReplaceAtFront(t, oldText, newText);
    assert t[|oldText|..] == s[k + |oldText|..];
  }
}

=== FILE: scenarios.dfy ===
/** Worked examples from the program's usage text and its documented
    behaviour, each derived from the general lemmas. */
module Scenarios {
  import opened Wrappers
  import opened PyStr
  import opened UrlLib
  import opened ConnectionPatch
  import opened Archer

  /** A URL without any `:` has no scheme. */
  lemma NoColonNoScheme(url: string)
    requires ':' !in url
    ensures !HasScheme(url)
  {
    forall k | 0 < k ensures !OccursAt(url, "://", k) {
      if k + 3 <= |url| {
        assert url[k] != ':';
        assert url[k..k + 3][0] == url[k];
      }
    }
  }

  /** The CNAME `edge-123.example-edgekey.net.` gives the production edge
      hostname without the root dot and the staging one with the marker
      rewritten. */
  lemma EdgeHostnameExample(domain: string, cname: string)
    requires cname == "edge-123.example-edgekey.net."
    ensures EdgeHostnames(domain, Answer(cname))
         == Ok(Route("edge-123.example-edgekey.net", "edge-123.example-edgekey-staging.net"))
  {
    var production, x, y := "edge-123.example-edgekey.net", "edge-123.example-", ".net";
    assert DropLast(cname) == production;
    assert production == x + "edgekey" + y;
    assert "edge-123.example-" + "edgekey-staging" + ".net" == "edge-123.example-edgekey-staging.net";
    NoMarkerStartsBefore(x, y);
    NoMarkerWithoutK(y);
    StagingAroundMarker(production, x, y);
  }

  /** An illustrative edge hostname, `www.akamai.com.edgekey.net`: the `k`
      of `akamai` is no obstacle, only the marker is rewritten. */
  lemma UsageHostStaging(production: string)
    requires production == "www.akamai.com.edgekey.net"
    ensures StagingHostname(production) == "www.akamai.com.edgekey-staging.net"
  {
    var x, y := "www.akamai.com.", ".net";
    assert production == x + "edgekey" + y;
    assert x + "edgekey-staging" + y == "www.akamai.com.edgekey-staging.net";
    NoMarkerStartsBefore(x, y);
    NoMarkerWithoutK(y);
    StagingAroundMarker(production, x, y);
  }

  /** Two markers: both are rewritten. */
  lemma TwoMarkersStaging(marker: string, staged: string)
    requires marker == "edgekey" && staged == "edgekey-staging"
    ensures StagingHostname(marker + marker) == staged + staged
  {
    assert marker + marker == [] + "edgekey" + marker;
    StagingMarkerStep([], marker);
    assert marker == [] + "edgekey" + [];
    StagingMarkerStep([], []);
    assert StagingHostname([]) == [];
  }

  /** A scheme-less source whose query holds a URL passes the scheme check,
      yet `urlsplit` finds no scheme before its first `:` and no `//`, so the
      domain handed to DNS is empty. */
  lemma QueryUrlDomainEmpty(url: string)
    requires url == "example.com/?u=http://x"
    ensures HasScheme(url) && Netloc(url) == ""
  {
    QueryUrlCountsAsScheme();
    QueryUrlHasNoUnsafe(url);
    QueryUrlHasNoScheme(url);
    NoSchemeNoNetloc(url);
  }

  lemma QueryUrlHasNoUnsafe(url: string)
    requires url == "example.com/?u=http://x"
    ensures forall i :: 0 <= i < |url| ==> !IsUnsafe(url[i])
  {
    assert '\t' !in url && '\r' !in url && '\n' !in url;
    forall i | 0 <= i < |url| ensures !IsUnsafe(url[i]) {
      assert url[i] in url;
    }
  }

  lemma QueryUrlHasNoScheme(url: string)
    requires url == "example.com/?u=http://x"
    ensures forall i :: 0 < i < |url| && url[i] == ':' ==> !IsScheme(url[..i])
  {
    var host := url[..12];
    assert host == "example.com/" && ':' !in host;
    assert host[11] == '/';
    forall i | 0 <= i < 12 ensures url[i] != ':' {
      assert host[i] == url[i];
    }
    forall i | 0 < i < |url| && url[i] == ':' ensures !IsScheme(url[..i]) {
      assert url[..i][11] == host[11];
    }
  }

  /** A source behind the CDN, checked on the staging network: DNS is asked
      for the source's host, and the request is routed to the staging edge
      hostname derived from its CNAME. */
  lemma StagingCheckExample(source: string, host: string, cname: string,
                            resolve: string -> DnsOutcome, fetch: Request -> Response)
    requires host == "blog.example.com" && source == "https://" + host + "/"
    requires cname == "edge-123.example-edgekey.net."
    requires resolve(host) == Answer(cname)
    ensures var r := CheckRedirect(Config(false, false, false), source, None, resolve, fetch);
            && r.Ok?
            && r.value.domain == host
            && r.value.request == Request(source, ScopedOverride("edge-123.example-edgekey-staging.net"))
            && r.value.outcome == NoDestination(fetch(r.value.request).status, Unquote(fetch(r.value.request).url))
  {
    ExampleSource(source, host);
    EdgeHostnameExample(host, cname);
  }

  lemma ExampleSource(source: string, host: string)
    requires host == "blog.example.com" && source == "https://" + host + "/"
    ensures HasScheme(source) && Netloc(source) == host
  {
    ExampleSourceScheme(source);
    ExampleSourceDomain(source, host);
  }

  lemma ExampleSourceScheme(source: string)
    requires source == "https://blog.example.com/"
    ensures HasScheme(source)
  {
    assert source[5..8] == "://";
    HasSchemeAt(source, 5);
  }

  lemma ExampleSourceDomain(source: string, host: string)
    requires host == "blog.example.com" && source == "https://" + host + "/"
    ensures Netloc(source) == host
  {
    assert IsScheme("https");
    assert '/' !in host && '?' !in host && '#' !in host && '\t' !in host && '\r' !in host && '\n' !in host;
    forall i | 0 <= i < |host| ensures !IsNetlocDelimiter(host[i]) && !IsUnsafe(host[i]) {
      assert host[i] in host;
    }
    assert "https" + "://" + host + "/" == source;
    DomainIsAuthority("https", host, "/");
  }

  /** The usage example: destination `https://www.akamai.com/blog?` matches
      a final URL that encodes the `?` as `%3F`. */
  lemma DecodedMatchExample(plain: string, target: string, finalUrl: string, status: int)
    requires plain == "https://www.akamai.com/blog"
    requires target == plain + "?" && finalUrl == plain + "%3F"
    ensures Classify(Some(target), Response(status, finalUrl)) == Success(finalUrl)
  {
    assert '%' !in plain;
    UnquoteKeepsPlainPrefix(plain, "%3F");
    assert StartsWithEscape("%3F");
    assert Unquote("%3F") == "?" + Unquote("");
  }

  /** A server that escapes a letter (`%62` for `b`, in lower-case hex
      for `%6c`) still matches the plain destination. */
  lemma EscapedLetterMatches(site: string, target: string, finalUrl: string, status: int)
    requires site == "https://x/"
    requires target == site + "blog" && finalUrl == site + "%62%6cog"
    ensures Classify(Some(target), Response(status, finalUrl)) == Success(finalUrl)
  {
    assert '%' !in site;
    UnquoteKeepsPlainPrefix(site, "%62%6cog");
    assert StartsWithEscape("%62%6cog") && "%62%6cog"[3..] == "%6cog";
    assert StartsWithEscape("%6cog") && "%6cog"[3..] == "og";
    UnquoteWithoutPercent("og");
    assert Unquote("%62%6cog") == "b" + ("l" + "og");
  }

  /** A source typed without any `:` (such as `blog.example.com/`) and
      without the relaxed flag stops the check with MissingSourceScheme,
      whatever the destination and whatever DNS and HTTP would answer. */
  lemma MissingSchemeExample(source: string, target: Option<string>, production: bool,
                             resolve: string -> DnsOutcome, fetch: Request -> Response)
    requires ':' !in source
    ensures CheckRedirect(Config(false, false, production), source, target, resolve, fetch)
         == Err(MissingSourceScheme)
  {
    NoColonNoScheme(source);
  }

  /** A batch file combined with `--source` is refused before any check. */
  lemma FileWithSourceExample(file: string, source: string)
    requires file != "" && source != ""
    ensures ValidateUsage(Flags(Some(file), Some(source), None, false, false, false, false))
         == Err(FileWithSourceOrDestination)
  {
  }
}

=== FILE: urllib.dfy ===
/** The two `urllib.parse` functions the checker calls: `unquote`
    (percent-decoding, section 2.1 of RFC 3986) and the network-location
    part of `urlparse` (the authority, section 3.2 of RFC 3986). */
module UrlLib {
  import opened Wrappers

  // ---------------------------------------------------------------------
  // Percent-decoding
  // ---------------------------------------------------------------------

  /** The digits Python accepts in an escape: 0-9, a-f and A-F. */
  predicate IsHexDigit(c: char) {
    '0' <= c <= '9' || 'a' <= c <= 'f' || 'A' <= c <= 'F'
  }

  function HexValue(c: char): (v: nat)
    requires IsHexDigit(c)
    ensures v < 16
  {
    if '0' <= c <= '9' then c as int - '0' as int
    else if 'a' <= c <= 'f' then c as int - 'a' as int + 10
    else c as int - 'A' as int + 10
  }

  /** `s` starts with a well-formed escape `%HH`. */
  predicate StartsWithEscape(s: string) {
    |s| >= 3 && s[0] == '%' && IsHexDigit(s[1]) && IsHexDigit(s[2])
  }

  /** `unquote(s)`: every well-formed escape `%HH` becomes the character with
      code HH; every other character, including a `%` that does not start a
      well-formed escape, is copied through unchanged. */
  function Unquote(s: string): (r: string)
    ensures |r| <= |s|
    ensures |r| == |s| ==> r == s
  {
    if s == [] then []
    else if StartsWithEscape(s) then
      [(16 * HexValue(s[1]) + HexValue(s[2])) as char] + Unquote(s[3..])
    else
      [s[0]] + Unquote(s[1..])
  }

  /** A string with no `%` in it decodes to itself (Python returns it at once). */
  lemma {:induction false} UnquoteWithoutPercent(s: string)
    requires '%' !in s
    ensures Unquote(s) == s
  {
    if s != [] {
      assert s[0] != '%';
      assert '%' !in s[1..] by { assert forall i :: 0 <= i < |s[1..]| ==> s[1..][i] == s[i + 1]; }
      UnquoteWithoutPercent(s[1..]);
    }
  }

  /** Text without `%` in front of the rest is copied by the decoder. */
  lemma {:induction false} UnquoteKeepsPlainPrefix(a: string, b: string)
    requires '%' !in a
    ensures Unquote(a + b) == a + Unquote(b)
  {
    if a == [] {
      assert a + b == b;
    } else {
      assert (a + b)[0] == a[0] && (a + b)[1..] == a[1..] + b;
      UnquoteKeepsPlainPrefix(a[1..], b);
    }
  }

  /** Decoding is the identity exactly when the string holds no well-formed escape. */
  lemma {:induction false} UnquoteIdentityIffNoEscape(s: string)
    ensures Unquote(s) == s <==> forall i :: 0 <= i <= |s| ==> !StartsWithEscape(s[i..])
  {
    if s == [] {
    } else if StartsWithEscape(s) {
      assert |Unquote(s)| < |s| by { assert |Unquote(s[3..])| <= |s| - 3; }
      assert s[0..] == s;
    } else {
      UnquoteIdentityIffNoEscape(s[1..]);
      assert forall i :: 1 <= i <= |s| ==> s[1..][i - 1..] == s[i..];
      assert s[0..] == s;
      if forall i :: 0 <= i <= |s| ==> !StartsWithEscape(s[i..]) {
        forall i | 0 <= i <= |s[1..]| ensures !StartsWithEscape(s[1..][i..]) {
          assert s[1..][i..] == s[i + 1..];
        }
      } else {
        var i :| 0 <= i <= |s| && StartsWithEscape(s[i..]);
        assert i >= 1 && s[1..][i - 1..] == s[i..];
      }
    }
  }

  // A reference percent-encoder, the partner of Unquote.

  /** Characters `urllib.parse.quote` leaves as they are with its default
      `safe='/'`: ASCII letters and digits, `_.-~` and `/`. */
  predicate IsQuoteSafe(c: char) {
    'a' <= c <= 'z' || 'A' <= c <= 'Z' || '0' <= c <= '9' || c in "_.-~/"
  }

  predicate IsAscii(s: string) {
    forall i :: 0 <= i < |s| ==> s[i] as int < 128
  }

  /** The hex digit for `v`, with `a`-`f` in lower or upper case. */
  function HexDigit(v: nat, lower: bool): (c: char)
    requires v < 16
    ensures IsHexDigit(c) && HexValue(c) == v
  {
    if v < 10 then ('0' as int + v) as char
    else if lower then ('a' as int + v - 10) as char
    else ('A' as int + v - 10) as char
  }

  /** A percent-encoding of an ASCII string in any spelling a server may
      send back: each character `escape` selects becomes `%HH`, in lower-case
      hex where `lower` says so and in upper case otherwise; every other
      character stays as it is. */
  function QuoteWith(s: string, escape: char -> bool, lower: char -> bool): (r: string)
    requires IsAscii(s)
    ensures |r| >= |s|
    ensures forall i :: 0 <= i < |r| ==> !escape(r[i]) || r[i] == '%' || IsHexDigit(r[i])
  {
    if s == [] then []
    else if !escape(s[0]) then [s[0]] + QuoteWith(s[1..], escape, lower)
    else
      var code := s[0] as int;
      ['%', HexDigit(code / 16, lower(s[0])), HexDigit(code % 16, lower(s[0]))] + QuoteWith(s[1..], escape, lower)
  }

  /** Percent-encoding of an ASCII string as `urllib.parse.quote` does it:
      safe characters stay, every other one becomes `%HH` in upper case. */
  function Quote(s: string): (r: string)
    requires IsAscii(s)
    ensures |r| >= |s|
    ensures forall i :: 0 <= i < |r| ==> IsQuoteSafe(r[i]) || r[i] == '%' || IsHexDigit(r[i])
  {
    QuoteWith(s, c => !IsQuoteSafe(c), c => false)
  }

  /** Decoding undoes every such encoding, whichever characters it escapes
      and in whichever case, as long as `%` itself is escaped. */
  lemma {:induction false} UnquoteQuoteWith(s: string, escape: char -> bool, lower: char -> bool)
    requires IsAscii(s) && escape('%')
    ensures Unquote(QuoteWith(s, escape, lower)) == s
  {
    if s != [] {
      var rest := QuoteWith(s[1..], escape, lower);
      UnquoteQuoteWith(s[1..], escape, lower);
      if !escape(s[0]) {
        var q := [s[0]] + rest;
        assert q[0] != '%';
        assert q[1..] == rest;
      } else {
        var code := s[0] as int;
        var q := ['%', HexDigit(code / 16, lower(s[0])), HexDigit(code % 16, lower(s[0]))] + rest;
        assert StartsWithEscape(q);
        assert q[3..] == rest;
        assert 16 * (code / 16) + code % 16 == code;
      }
    }
  }

  /** Decoding undoes `quote`: a destination written plainly equals the
      decoded form of its percent-encoded spelling. */
  lemma UnquoteQuote(s: string)
    requires IsAscii(s)
    ensures Unquote(Quote(s)) == s
  {
    UnquoteQuoteWith(s, c => !IsQuoteSafe(c), c => false);
  }

  // ---------------------------------------------------------------------
  // The network location of a URL
  // ---------------------------------------------------------------------

  /** The characters `urlsplit` strips from the front of a URL: the C0
      controls and the space. */
  predicate IsC0ControlOrSpace(c: char) {
    c as int <= 0x20
  }

  /** The characters `urlsplit` deletes anywhere in a URL. */
  predicate IsUnsafe(c: char) {
    c == '\t' || c == '\r' || c == '\n'
  }

  function LStripC0(s: string): (r: string)
    ensures |r| <= |s| && r == s[|s| - |r|..]
    ensures r == [] || !IsC0ControlOrSpace(r[0])
    ensures forall i :: 0 <= i < |s| - |r| ==> IsC0ControlOrSpace(s[i])
  {
    if s != [] && IsC0ControlOrSpace(s[0]) then
      var r := LStripC0(s[1..]);
      assert forall i :: 1 <= i < |s| - |r| ==> s[i] == s[1..][i - 1];
      r
    else s
  }

  function RemoveUnsafe(s: string): (r: string)
    ensures forall i :: 0 <= i < |r| ==> !IsUnsafe(r[i])
    ensures |r| <= |s|
    ensures (forall i :: 0 <= i < |s| ==> IsUnsafe(s[i])) ==> r == []
  {
    if s == [] then []
    else if IsUnsafe(s[0]) then
      assert forall i :: 0 <= i < |s| - 1 ==> s[1..][i] == s[i + 1];
      RemoveUnsafe(s[1..])
    else [s[0]] + RemoveUnsafe(s[1..])
  }

  /** Python's `s.find(c)`: the first index of `c`, if any. */
  function Find(s: string, c: char): (r: Option<nat>)
    ensures r.Some? ==> r.value < |s| && s[r.value] == c && c !in s[..r.value]
    ensures r.None? <==> c !in s
  {
    if s == [] then None
    else if s[0] == c then Some(0)
    else match Find(s[1..], c)
      case None => None
      case Some(i) =>
        assert s[..i + 1] == [s[0]] + s[1..][..i];
        Some(i + 1)
  }

  predicate IsSchemeChar(c: char) {
    'a' <= c <= 'z' || 'A' <= c <= 'Z' || '0' <= c <= '9' || c in "+-."
  }

  /** What `urlsplit` accepts as a scheme in front of the first `:`. */
  predicate IsScheme(s: string) {
    && s != []
    && ('a' <= s[0] <= 'z' || 'A' <= s[0] <= 'Z')
    && forall i :: 0 <= i < |s| ==> IsSchemeChar(s[i])
  }

  predicate IsNetlocDelimiter(c: char) {
    c == '/' || c == '?' || c == '#'
  }

  /** The longest prefix of `s` holding none of `/`, `?` and `#`. */
  function TakeNetloc(s: string): (r: string)
    ensures |r| <= |s| && r == s[..|r|]
    ensures forall i :: 0 <= i < |r| ==> !IsNetlocDelimiter(r[i])
    ensures |r| < |s| ==> IsNetlocDelimiter(s[|r|])
  {
    if s == [] || IsNetlocDelimiter(s[0]) then [] else [s[0]] + TakeNetloc(s[1..])
  }

  /** What is left once `urlsplit` has taken off the scheme and its `:`:
      the scheme ends at the first `:` and must be a valid scheme,
      otherwise nothing is taken off. */
  function AfterScheme(url: string): (rest: string)
    ensures |rest| <= |url| && rest == url[|url| - |rest|..]
  {
    match Find(url, ':')
    case Some(i) =>
      if i > 0 && IsScheme(url[..i]) then url[i + 1..] else url
    case None => url
  }

  /** `urlparse(url).netloc`, as CPython 3.12's `urlsplit` computes it: strip
      leading controls and spaces, delete tabs and line breaks, take off the
      scheme, and when what remains starts with `//`, the text after it up to
      the first `/`, `?` or `#`. Userinfo and port stay in the result. */
  function Netloc(url: string): (n: string)
    ensures forall i :: 0 <= i < |n| ==> !IsNetlocDelimiter(n[i])
  {
    var rest := AfterScheme(RemoveUnsafe(LStripC0(url)));
    if |rest| >= 2 && rest[..2] == "//" then TakeNetloc(rest[2..]) else []
  }

  /** The network location never holds a tab or a line break. */
  lemma NetlocHasNoUnsafe(url: string)
    ensures forall i :: 0 <= i < |Netloc(url)| ==> !IsUnsafe(Netloc(url)[i])
  {
    var cleaned := RemoveUnsafe(LStripC0(url));
    var rest := AfterScheme(cleaned);
    if |rest| >= 2 && rest[..2] == "//" {
      var n := TakeNetloc(rest[2..]);
      var d := |cleaned| - |rest| + 2;
      forall i | 0 <= i < |n| ensures !IsUnsafe(n[i]) {
        assert n[i] == rest[2..][i] == rest[2 + i];
        assert rest[2 + i] == cleaned[d + i];
      }
    }
  }

  lemma {:induction false} RemoveUnsafeAppend(a: string, b: string)
    ensures RemoveUnsafe(a + b) == RemoveUnsafe(a) + RemoveUnsafe(b)
  {
    if a == [] {
      assert a + b == b;
    } else {
      assert (a + b)[0] == a[0] && (a + b)[1..] == a[1..] + b;
      RemoveUnsafeAppend(a[1..], b);
    }
  }

  lemma {:induction false} RemoveUnsafeKeepsSafe(s: string)
    requires forall i :: 0 <= i < |s| ==> !IsUnsafe(s[i])
    ensures RemoveUnsafe(s) == s
  {
    if s != [] {
      RemoveUnsafeKeepsSafe(s[1..]);
    }
  }

  lemma {:induction false} FindAfterPrefix(a: string, c: char, b: string)
    requires c !in a
    ensures Find(a + [c] + b, c) == Some(|a|)
  {
    if a != [] {
      assert (a + [c] + b)[1..] == a[1..] + [c] + b;
      FindAfterPrefix(a[1..], c, b);
    }
  }

  lemma CleanSchemeUrl(scheme: string, rest: string)
    requires IsScheme(scheme)
    ensures RemoveUnsafe(LStripC0(scheme + "://" + rest)) == scheme + "://" + RemoveUnsafe(rest)
  {
    var url := scheme + "://" + rest;
    assert url[0] == scheme[0];
    assert LStripC0(url) == url;
    RemoveUnsafeOfSchemePrefix(scheme, rest);
  }

  lemma RemoveUnsafeOfSchemePrefix(scheme: string, rest: string)
    requires IsScheme(scheme)
    ensures RemoveUnsafe(scheme + "://" + rest) == scheme + "://" + RemoveUnsafe(rest)
  {
    var prefix := scheme + "://";
    RemoveUnsafeAppend(prefix, rest);
    assert forall i :: 0 <= i < |prefix| ==> !IsUnsafe(prefix[i]) by {
      forall i | 0 <= i < |prefix| ensures !IsUnsafe(prefix[i]) {
        if i < |scheme| { assert IsSchemeChar(scheme[i]); }
      }
    }
    RemoveUnsafeKeepsSafe(prefix);
  }

  lemma SchemeHasNoColon(scheme: string)
    requires IsScheme(scheme)
    ensures ':' !in scheme
  {
    forall i | 0 <= i < |scheme| ensures scheme[i] != ':' {
      assert IsSchemeChar(scheme[i]);
    }
  }

  /** A valid scheme holds no `:`, so one followed by `:` always ends at the
      first `:`. The scheme is taken off exactly when such a prefix exists;
      otherwise the URL comes back unchanged. */
  lemma {:induction false} AfterSchemeIff(url: string)
    ensures forall i :: 0 < i < |url| && url[i] == ':' && IsScheme(url[..i]) ==> AfterScheme(url) == url[i + 1..]
    ensures AfterScheme(url) != url ==>
              exists i :: 0 < i < |url| && url[i] == ':' && IsScheme(url[..i]) && AfterScheme(url) == url[i + 1..]
  {
    forall i | 0 < i < |url| && url[i] == ':' && IsScheme(url[..i]) ensures AfterScheme(url) == url[i + 1..] {
      AfterSchemeAt(url, i);
    }
    if AfterScheme(url) != url {
      var j := Find(url, ':').value;
      assert 0 < j < |url| && url[j] == ':' && IsScheme(url[..j]);
    }
  }

  lemma AfterSchemeAt(url: string, i: nat)
    requires 0 < i < |url| && url[i] == ':' && IsScheme(url[..i])
    ensures AfterScheme(url) == url[i + 1..]
  {
    SchemeHasNoColon(url[..i]);
    assert url == url[..i] + [':'] + url[i + 1..];
    FindAfterPrefix(url[..i], ':', url[i + 1..]);
  }

  lemma AfterValidScheme(scheme: string, tail: string)
    requires IsScheme(scheme)
    ensures AfterScheme(scheme + "://" + tail) == "//" + tail
  {
    var url := scheme + "://" + tail;
    assert url == scheme + [':'] + ("//" + tail);
    SchemeHasNoColon(scheme);
    FindAfterPrefix(scheme, ':', "//" + tail);
    assert url[..|scheme|] == scheme;
    assert url[|scheme| + 1..] == "//" + tail;
  }

  /** For a URL written as `scheme://rest`, the network location is the
      start of `rest` up to the first `/`, `?` or `#` (after tabs and line
      breaks are deleted): the host together with any userinfo and port. */
  lemma NetlocAfterScheme(scheme: string, rest: string)
    requires IsScheme(scheme)
    ensures Netloc(scheme + "://" + rest) == TakeNetloc(RemoveUnsafe(rest))
  {
    var clean := RemoveUnsafe(rest);
    CleanSchemeUrl(scheme, rest);
    AfterValidScheme(scheme, clean);
    var tail := "//" + clean;
    assert tail[..2] == "//" && tail[2..] == clean;
  }

  /** A URL with no valid scheme in front of any `:` keeps its text after
      the scheme step; when it does not start with `//` either, it has no
      network location at all. */
  lemma NoSchemeNoNetloc(url: string)
    requires url != [] && !IsC0ControlOrSpace(url[0]) && url[0] != '/'
    requires forall i :: 0 <= i < |url| ==> !IsUnsafe(url[i])
    requires forall i :: 0 < i < |url| && url[i] == ':' ==> !IsScheme(url[..i])
    ensures Netloc(url) == []
  {
    assert LStripC0(url) == url;
    RemoveUnsafeKeepsSafe(url);
    AfterSchemeIff(url);
    assert AfterScheme(url) == url;
    if |url| >= 2 {
      assert url[..2][0] == url[0];
    }
  }

  /** The network location ends at the first delimiter. */
  lemma {:induction false} TakeNetlocStops(host: string, tail: string)
    requires forall i :: 0 <= i < |host| ==> !IsNetlocDelimiter(host[i])
    requires tail == [] || IsNetlocDelimiter(tail[0])
    ensures TakeNetloc(host + tail) == host
  {
    if host == [] {
      assert host + tail == tail;
    } else {
      assert (host + tail)[0] == host[0] && (host + tail)[1..] == host[1..] + tail;
      TakeNetlocStops(host[1..], tail);
    }
  }
}

=== FILE: wrappers.dfy ===
/** Option and Result values, used where the program either has no value
    (Python's None) or stops with an error message (its calls to quit()). */
module Wrappers {

  datatype Option<+T> = None | Some(value: T)

  datatype Result<+T, +E> = Ok(value: T) | Err(error: E) {

    predicate IsFailure() {
      Err?
    }

    function PropagateFailure<U>(): Result<U, E>
      requires Err?
    {
      Err(error)
    }

    function Extract(): T
      requires Ok?
    {
      value
    }
  }
}
